=== FILE: README.md ===
# Happiness in Tickets — a Dafny model of the ticket-analysis library

The application loads ticket numbers from a text file, one per line. It
then answers questions about them: which tickets are "lucky", how many are
lucky, and how many are even or odd. A ticket is lucky when it has six
digits and its first three digits add up to the same total as its last
three. All of this logic lives in `app/ticket_logic.py`. This project
models its four functions as pure Dafny functions and methods over
sequences of strings and proves what they compute.

- `Text` (text.dfy) models `str.strip()`. It scans forward past leading
  whitespace, then backward past trailing whitespace. It is proved equal to
  a declarative reference: whitespace + core + whitespace strips to the
  core.
- `Digits` (digits.dfy) models `int()` on a string as `ParseInt`. It returns
  `Some(value)` or `None`, where `None` stands for ValueError. It is proved
  equal to a declarative reference: `IsLiteral` and `LiteralValue`. Reading
  back the decimal rendering `ShowInt(n)` gives `n`.
- `Lucky` (lucky.dfy) models `is_lucky` as `IsLucky`. It returns a `Result`
  because a six-character ticket with a character other than an ASCII digit raises ValueError. Its
  partner is the positional definition `LuckyTicket`.
- `Tickets` (tickets.dfy) models the rest:
  - the strip-and-drop-blank step of `read_and_analyze_tickets` (`CleanLines`);
  - its lucky sublist (`LuckyFilter`) and the whole load (`ReadAndAnalyze`);
  - `count_lucky_tickets` (`CountLucky`);
  - `count_even_odd_tickets` (`CountEvenOdd`, with its loops).
- `Wrappers` (wrappers.dfy) holds `Option` and `Result`.

On a six-character ticket that holds a character other than an ASCII
digit `0`-`9`, `int(digit)` on lines 25-26 raises ValueError in the model. Nothing catches it:
`try` covers only lines 7-9. So the error escapes `is_lucky`, the lucky
list on line 14 and the generator on line 56, and the model carries it as
`Failure(ValueError(c))`, where `c` is the first non-digit character.

## Model

| member | source | states |
|---|---|---|
| Text.Strip | app/ticket_logic.py:9 | `ticket.strip()` returns a string with no whitespace at either end, and it is no longer than its input |
| Text.StripUnique | app/ticket_logic.py:9 | when a line is whitespace + core + whitespace and the core has no whitespace at either end, stripping returns exactly that core |
| Text.StripFixpoint | app/ticket_logic.py:9 | stripping leaves a string unchanged exactly when it has no whitespace at either end, and stripping twice is the same as stripping once |
| Text.StripIgnoresPadding | app/ticket_logic.py:9 | adding whitespace around a line does not change what it strips to |
| Digits.ParseDigitsSpec | app/ticket_logic.py:43 | the digit part of `int()` accepts exactly the non-empty all-digit strings, and its value is their decimal value |
| Digits.ParseNeedsDigit | app/ticket_logic.py:43-46 | `int()` raises ValueError on every string with no digit in it |
| Digits.ParseLiteralSpec | app/ticket_logic.py:43 | after stripping, `int()` accepts exactly an optional `+` or `-` followed by one or more digits; the value is the digits' decimal value, negated after `-` |
| Digits.ParseInt | app/ticket_logic.py:43-46 | `int(s)` succeeds exactly when the stripped `s` is an integer literal, and it then returns that literal's value; otherwise it raises ValueError |
| Digits.ParseIntExamplePlus | app/ticket_logic.py:43 | `int(" +5\n")` is 5 |
| Digits.ParseIntExampleZeros | app/ticket_logic.py:43 | `int("-007")` is -7 |
| Digits.ParseIntExampleMisplacedSign | app/ticket_logic.py:43-46 | `int("5-")` and `int("+-5")` raise ValueError |
| Digits.ParseShowRoundTrip | app/ticket_logic.py:43 | parsing the decimal rendering of any integer, negative ones included, gives that integer back (Python's limit on digit count is not modelled, see below) |
| Digits.ParseSingleChar | app/ticket_logic.py:25-26 | `int(digit)` on one character succeeds exactly when the character is a digit, and it gives that digit's value |
| Digits.ParseIgnoresPadding | app/ticket_logic.py:43 | `int()` gives the same result when whitespace surrounds its argument |
| Digits.ParseSixDigits | app/ticket_logic.py:43 | a six-digit ticket parses to its decimal value, which lies in [0, 999999] |
| Digits.ParseExampleRejected | app/ticket_logic.py:43-46 | `int("abc")` and `int("+")` raise ValueError |
| Lucky.SumOfDigits | app/ticket_logic.py:25-26 | the digit sum of a half succeeds exactly when every character is a digit; otherwise it raises ValueError on the first non-digit character |
| Lucky.SumOfDigitsValue | app/ticket_logic.py:25-26 | on an all-digit half, the sum of the `int(digit)` values is the sum of the digit values |
| Lucky.IsLucky | app/ticket_logic.py:23-28 | a ticket whose length is not 6 is not lucky, and no error is raised for it |
| Lucky.IsLuckySpec | app/ticket_logic.py:24-27 | `is_lucky` raises exactly on malformed six-character tickets, with the ValueError of the first non-digit; it returns true exactly for six-digit tickets whose two halves have equal digit sums |
| Lucky.IsLuckySwapHalves | app/ticket_logic.py:25-27 | exchanging the two halves of a six-character ticket changes neither whether `is_lucky` raises nor, when it does not raise, its verdict |
| Lucky.IsLuckyExampleLucky | app/ticket_logic.py:24-27 | "123132" is lucky |
| Lucky.IsLuckyExampleNotLucky | app/ticket_logic.py:24-27 | "123456" is not lucky |
| Lucky.IsLuckyExampleRaises | app/ticket_logic.py:25-26 | "12a456" raises ValueError on "a" |
| Tickets.CleanLines | app/ticket_logic.py:9 | the cleaned list is no longer than the input, and every entry is non-empty with no whitespace at either end |
| Tickets.CleanTicketsAreStripped | app/ticket_logic.py:9 | every returned ticket is non-empty and equals its own strip |
| Tickets.CleanLinesAppend | app/ticket_logic.py:9 | cleaning two blocks of lines one after the other is cleaning each and concatenating the results |
| Tickets.CleanLinesIsNonBlankStrips | app/ticket_logic.py:9 | the tickets are exactly the stripped lines whose strip is non-empty, in file order: every such line is kept and every other line is dropped |
| Tickets.CleanLinesKeepsOrder | app/ticket_logic.py:9 | the returned tickets are a subsequence of the stripped lines, in file order |
| Tickets.CleanLinesIdempotent | app/ticket_logic.py:9 | cleaning the returned tickets again returns them unchanged |
| Tickets.CleanLinesReadBack | app/ticket_logic.py:8-9 | writing clean tickets that hold no line feed or carriage return one per line, each followed by a line feed, and loading the lines `readlines()` returns gives the same tickets back |
| Tickets.NoMalformedEverywhere | app/ticket_logic.py:14 | the recursive "no ticket raises" test holds exactly when no position holds a malformed ticket |
| Tickets.FirstMalformed | app/ticket_logic.py:14 | the ticket that raises is malformed, and every ticket before it is not |
| Tickets.LuckyFilter | app/ticket_logic.py:14 | the lucky list succeeds exactly when no ticket is malformed; otherwise it raises the error of the first malformed ticket; every kept ticket is lucky; every lucky ticket is kept |
| Tickets.LuckyFilterIsKeepLucky | app/ticket_logic.py:14 | when no ticket raises, the lucky list is exactly the lucky tickets in order, each as often as it occurs |
| Tickets.LuckyFilterKeepsOrder | app/ticket_logic.py:14 | the lucky list is a subsequence of the tickets |
| Tickets.ReadAndAnalyze | app/ticket_logic.py:1-15 | an unreadable file gives two empty lists; otherwise the tickets are the cleaned lines, loading raises exactly when a ticket is malformed, and the lucky list is exactly the lucky tickets, in order, each as often as it occurs |
| Tickets.ReadAndAnalyzeLucky | app/ticket_logic.py:14-15 | the lucky list returned by a successful load keeps ticket order, and its length is what `count_lucky_tickets` returns for the ticket list |
| Tickets.ReadFailureLooksEmpty | app/ticket_logic.py:10-12 | an unreadable file and a file of blank lines both give two empty lists |
| Tickets.CountLucky | app/ticket_logic.py:52-56 | the lucky count raises exactly when some ticket is malformed, and otherwise is at most the number of tickets |
| Tickets.CountLuckyIsFilterLength | app/ticket_logic.py:56 | the lucky count equals the length of the lucky list, and both raise the same error |
| Tickets.CountLuckyCountsPositions | app/ticket_logic.py:56 | when no ticket is malformed, the lucky count is the number of positions that hold a lucky ticket |
| Tickets.CountLuckyAppend | app/ticket_logic.py:56 | the count over two lists in a row is the sum of their counts, and an error in the first list wins |
| Tickets.ParsedNumbersAppend | app/ticket_logic.py:40-46 | the valid numbers of two lists in a row are the valid numbers of each, concatenated |
| Tickets.ParsedNumbersSingle | app/ticket_logic.py:42-46 | one entry adds its value when `int()` accepts it and nothing when it raises ValueError |
| Tickets.UnparseableIgnored | app/ticket_logic.py:45-46 | an entry that `int()` rejects can be removed without changing the valid numbers, so it adds to neither count |
| Tickets.EvenOddPartition | app/ticket_logic.py:47-48 | every parsed value, negative ones included, is counted as exactly one of even or odd |
| Tickets.CollectValidNumbers | app/ticket_logic.py:40-46 | the loop collects, in order, the value of every entry `int()` accepts |
| Tickets.CountEvenNumbers | app/ticket_logic.py:47 | the loop counts the values with `v % 2 == 0` |
| Tickets.CountEvenOdd | app/ticket_logic.py:31-49 | `even` counts the parsed values with `v % 2 == 0`, `odd` counts those with `v % 2 == 1`, and together they are the number of parsed entries, at most the number of tickets |

## Left out

- Opening and reading the file (app/ticket_logic.py:6-8): `ReadAndAnalyze` takes what `readlines()` returned. `None` stands for any exception raised while opening or reading. The `print` of the error message is not modelled.
- `str(ticket)` on line 23 is the identity in the model. Every caller passes strings read from the file. `str()` of other Python values is not modelled.
- Digits.ParseInt: accepts only the six characters of `Text.IsWhitespace` around the literal, an optional sign and the ASCII digits `0`-`9`. Python's `int()` also accepts underscores between digits, every Unicode decimal digit, and further whitespace (`\x1c`-`\x1f` and Unicode whitespace). The model rejects those. In particular, a six-character ticket of other Unicode decimal digits, such as Arabic-Indic ones, makes `IsLucky`, the lucky list and the lucky count raise in the model, where Python accepts it.
- Digits.ParseInt: does not model the limit on the length of integer strings in recent CPython releases (3.11 and later, and security releases of 3.7 to 3.10). There `int()` raises ValueError on a decimal string of more than 4300 digits. `count_even_odd_tickets` would skip such an entry, but `ParsedNumbers` counts it. For the same reason, `ParseShowRoundTrip` does not hold for `str(n)` in Python when `n` has more than 4300 digits.
- Text.Strip: removes only space, tab, line feed, carriage return, vertical tab and form feed. Python's `str.strip()` also removes other Unicode whitespace, such as `\x1c`-`\x1f`, `\x85` and `\xa0`.
- Tickets.CleanLinesReadBack: stated only for tickets with no line feed or carriage return. Text-mode `readlines()` splits a written ticket holding either into several lines, so such a ticket does not read back as itself.
- Lucky.IsLuckySwapHalves: states nothing about which error a malformed ticket raises after its halves are swapped. The first non-digit character may then be a different one.
- Tickets.CountLuckyCountsPositions: stated only for ticket lists with no malformed ticket. Otherwise the count raises, which `CountLucky`'s own contract and `CountLuckyIsFilterLength` describe.
- app/main_window.py (the PySide6 window, buttons, timers, file dialog and tables) and run.py (the Qt entry point) are not part of this model. They hold no ticket logic of their own.

=== FILE: digits.dfy ===
/** Decimal digits and Python's `int()` applied to a string.

    `ParseInt` accepts what `int(s)` accepts in this model: surrounding
    whitespace, then an optional `+` or `-`, then one or more ASCII digits
    (leading zeros allowed). Anything else is the ValueError case, `None`.
    Its partner is `ShowInt`, the decimal rendering of an integer, with the
    round trip `ParseShowRoundTrip`.
 */
module Digits {
  import opened Wrappers
  import opened Text

  /** The exception `int()` raises on a string that is not an integer
      literal; `literal` is the rejected argument. */
  datatype PyError = ValueError(literal: string)

  predicate IsDigit(c: char) {
    '0' <= c <= '9'
  }

  function DigitValue(c: char): (d: nat)
    requires IsDigit(c)
    ensures d < 10
  {
    (c as int) - ('0' as int)
  }

  function DigitChar(d: nat): (c: char)
    requires d < 10
    ensures IsDigit(c) && DigitValue(c) == d
  {
    (('0' as int) + d) as char
  }

  predicate AllDigits(s: string) {
    forall i :: 0 <= i < |s| ==> IsDigit(s[i])
  }

  function Pow10(n: nat): (p: nat)
    ensures p >= 1
  {
    if n == 0 then 1 else 10 * Pow10(n - 1)
  }

  /** The value of a digit string read most significant digit first. */
  function DigitsValue(ds: string): (v: nat)
    requires AllDigits(ds)
    ensures v < Pow10(|ds|)
  {
    if |ds| == 0 then 0
    else DigitsValue(ds[..|ds| - 1]) * 10 + DigitValue(ds[|ds| - 1])
  }

  /** A sign character accepted in front of the digits. */
  predicate IsSign(c: char) {
    c == '+' || c == '-'
  }

  /** The unsigned part of an integer literal: one or more digits, read
      most significant first. */
  function ParseDigits(ds: string): (r: Option<nat>) {
    if |ds| == 0 || !IsDigit(ds[|ds| - 1]) then None
    else if |ds| == 1 then Some(DigitValue(ds[0]))
    else
      match ParseDigits(ds[..|ds| - 1])
      case None => None
      case Some(v) => Some(v * 10 + DigitValue(ds[|ds| - 1]))
  }

  /** The digit scan accepts exactly the non-empty digit strings, with their value. */
  lemma {:induction false} ParseDigitsSpec(ds: string)
    ensures ParseDigits(ds).Some? <==> |ds| > 0 && AllDigits(ds)
    ensures ParseDigits(ds).Some? ==> ParseDigits(ds).value == DigitsValue(ds)
    decreases |ds|
  {
    if |ds| > 1 {
      var init := ds[..|ds| - 1];
      ParseDigitsSpec(init);
      assert forall i :: 0 <= i < |init| ==> init[i] == ds[i];
      if IsDigit(ds[|ds| - 1]) && AllDigits(init) {
        assert AllDigits(ds);
      }
    } else if |ds| == 1 {
      assert ds[..0] == [];
    }
  }

  /** An already stripped integer literal: an optional sign, then one or
      more digits. */
  function ParseLiteral(u: string): (r: Option<int>) {
    if |u| > 0 && IsSign(u[0]) then
      match ParseDigits(u[1..])
      case None => None
      case Some(v) => Some(if u[0] == '-' then -(v as int) else v)
    else ParseDigits(u)
  }

  /** An integer literal with its whitespace already stripped: an optional
      sign followed by at least one digit. */
  predicate IsLiteral(u: string) {
    if |u| > 0 && IsSign(u[0]) then |u| > 1 && AllDigits(u[1..])
    else |u| > 0 && AllDigits(u)
  }

  /** The value an integer literal denotes. */
  function LiteralValue(u: string): (v: int)
    requires IsLiteral(u)
  {
    if !IsSign(u[0]) then DigitsValue(u)
    else if u[0] == '-' then -(DigitsValue(u[1..]) as int)
    else DigitsValue(u[1..])
  }

  /** The literal parser accepts exactly the integer literals, with their value. */
  lemma ParseLiteralSpec(u: string)
    ensures ParseLiteral(u).Some? <==> IsLiteral(u)
    ensures ParseLiteral(u).Some? ==> ParseLiteral(u).value == LiteralValue(u)
  {
    ParseDigitsSpec(u);
    if |u| > 0 {
      ParseDigitsSpec(u[1..]);
    }
  }

  /** `int(s)`: `Some(value)` when `s` is an integer literal, `None` where
      Python raises ValueError. */
  function ParseInt(s: string): (r: Option<int>)
    ensures r.Some? <==> IsLiteral(Strip(s))
    ensures r.Some? ==> r.value == LiteralValue(Strip(s))
  {
    ParseLiteralSpec(Strip(s));
    ParseLiteral(Strip(s))
  }

  /** `int(" +5\n")` is 5: whitespace and a plus sign are accepted. */
  lemma ParseIntExamplePlus()
    ensures ParseInt(" +5\n") == Some(5)
  {
    var s := " +5\n";
    assert [' '] + "+5" + "\n" == s;
    assert AllWhitespace("\n");
    StripUnique([' '], "+5", "\n");
    var u := "+5";
    assert u[1..] == "5" && AllDigits(u[1..]);
    assert DigitsValue("5") == 5 by {
      assert "5"[..0] == [];
    }
  }

  lemma LeadingZerosValue()
    ensures AllDigits("007") && DigitsValue("007") == 7
  {
    var ds := "007";
    var zz := ds[..2];
    assert zz == "00" && zz[..1] == "0";
    assert DigitsValue(zz[..1]) == 0 by {
      assert zz[..1][..0] == [];
    }
  }

  /** `int("-007")` is -7: leading zeros are accepted. */
  lemma ParseIntExampleZeros()
    ensures ParseInt("-007") == Some(-7)
  {
    var u := "-007";
    assert IsStripped(u);
    StripFixpoint(u);
    assert u[1..] == "007";
    LeadingZerosValue();
  }

  /** A sign after the digits, or two signs, make `int()` raise. */
  lemma ParseIntExampleMisplacedSign()
    ensures ParseInt("5-") == None
    ensures ParseInt("+-5") == None
  {
    var c, d := "5-", "+-5";
    assert IsStripped(c);
    StripFixpoint(c);
    assert !IsDigit(c[1]);
    assert IsStripped(d);
    StripFixpoint(d);
    assert !IsDigit(d[1..][0]);
  }

  /** `int()` never accepts a string without a digit. */
  lemma ParseNeedsDigit(s: string)
    requires forall i :: 0 <= i < |s| ==> !IsDigit(s[i])
    ensures ParseInt(s) == None
  {
    var u := Strip(s);
    StripIsInfix(s);
    if |u| > 0 {
      assert u[|u| - 1] == s[StripStart(s) + |u| - 1];
      ParseDigitsSpec(u);
      ParseDigitsSpec(u[1..]);
      if |u| > 1 {
        assert u[1..][|u| - 2] == u[|u| - 1];
      }
    }
  }

  /** The decimal rendering of a natural number, without leading zeros. */
  function ShowNat(n: nat): (s: string)
    ensures |s| > 0 && AllDigits(s)
  {
    if n < 10 then [DigitChar(n)] else ShowNat(n / 10) + [DigitChar(n % 10)]
  }

  /** `str(n)` for an integer: a minus sign in front of negative values. */
  function ShowInt(n: int): (s: string)
    ensures |s| > 0
  {
    if n < 0 then "-" + ShowNat(-n) else ShowNat(n)
  }

  lemma {:induction false} DigitsValueOfShowNat(n: nat)
    ensures DigitsValue(ShowNat(n)) == n
  {
    var s := ShowNat(n);
    if n >= 10 {
      assert s[..|s| - 1] == ShowNat(n / 10);
      DigitsValueOfShowNat(n / 10);
    }
  }

  lemma ParseLiteralShowNat(n: nat)
    ensures ParseLiteral(ShowNat(n)) == Some(n)
  {
    var s := ShowNat(n);
    assert !IsSign(s[0]);
    DigitsValueOfShowNat(n);
    ParseDigitsSpec(s);
  }

  lemma ParseLiteralShowNegated(m: nat)
    ensures ParseLiteral("-" + ShowNat(m)) == Some(-(m as int))
  {
    var s := "-" + ShowNat(m);
    assert s[0] == '-' && s[1..] == ShowNat(m);
    DigitsValueOfShowNat(m);
    ParseDigitsSpec(s[1..]);
  }

  lemma ParseLiteralShow(n: int)
    ensures ParseLiteral(ShowInt(n)) == Some(n)
  {
    if n < 0 {
      ParseLiteralShowNegated(-n);
    } else {
      ParseLiteralShowNat(n);
    }
  }

  /** Reading back the rendering of any integer yields that integer. */
  lemma ParseShowRoundTrip(n: int)
    ensures ParseInt(ShowInt(n)) == Some(n)
  {
    var s := ShowInt(n);
    var digits := ShowNat(if n < 0 then -n else n);
    assert s[|s| - 1] == digits[|digits| - 1];
    assert s[0] == '-' || s[0] == digits[0];
    assert IsStripped(s);
    StripFixpoint(s);
    ParseLiteralShow(n);
  }

  /** `int(c)` of a single character succeeds exactly on a digit, with its value. */
  lemma ParseSingleChar(c: char)
    ensures ParseInt([c]).Some? <==> IsDigit(c)
    ensures IsDigit(c) ==> ParseInt([c]) == Some(DigitValue(c) as int)
  {
    var s := [c];
    if IsWhitespace(c) {
      assert [c] + [] + [] == s;
      assert AllWhitespace([c]);
      StripUnique([c], [], []);
      assert Strip(s) == [];
    } else {
      assert IsStripped(s);
      StripFixpoint(s);
    }
    if IsDigit(c) {
      assert s[..0] == [];
    }
  }

  /** Surrounding whitespace does not change what `int()` returns. */
  lemma ParseIgnoresPadding(a: string, s: string, b: string)
    requires AllWhitespace(a) && AllWhitespace(b)
    ensures ParseInt(a + s + b) == ParseInt(s)
  {
    StripIgnoresPadding(a, s, b);
  }

  /** A well-formed ticket, six ASCII digits, parses to a value in [0, 999999]. */
  lemma ParseSixDigits(t: string)
    requires |t| == 6 && AllDigits(t)
    ensures ParseInt(t) == Some(DigitsValue(t))
    ensures 0 <= DigitsValue(t) <= 999999
  {
    assert IsStripped(t);
    StripFixpoint(t);
    ParseDigitsSpec(t);
    assert Pow10(6) == 1000000;
  }

  lemma ParseExampleRejected()
    ensures ParseInt("abc") == None
    ensures ParseInt("+") == None
  {
    var word := "abc";
    assert forall i :: 0 <= i < |word| ==> !IsDigit(word[i]);
    ParseNeedsDigit(word);
    var sign := "+";
    assert IsStripped(sign);
    StripFixpoint(sign);
    assert ParseLiteral(sign) == None;
  }
}

=== FILE: lucky.dfy ===
/** The lucky-ticket predicate, `is_lucky` in app/ticket_logic.py.

    A string whose length is not 6 is never lucky. A 6-character string is
    split into halves and each half is summed with `int(digit)` per
    character; a non-digit makes `int()` raise ValueError, which `is_lucky`
    does not catch, so the result is a `Result` with that error case.
    The partner of `IsLucky` is `LuckyTicket`, the definition of a lucky
    ticket written position by position.
 */
module Lucky {
  import opened Wrappers
  import opened Digits

  /** A six-character string with a character that is not a digit: the
      input on which `is_lucky` raises. */
  predicate Malformed(t: string) {
    |t| == 6 && !AllDigits(t)
  }

  /** Six digits whose first three add up to the same as the last three. */
  predicate LuckyTicket(t: string) {
    |t| == 6 && AllDigits(t)
    && DigitValue(t[0]) + DigitValue(t[1]) + DigitValue(t[2])
       == DigitValue(t[3]) + DigitValue(t[4]) + DigitValue(t[5])
  }

  /** Position of the first non-digit character. */
  function FirstNonDigit(s: string): (i: nat)
    requires !AllDigits(s)
    ensures i < |s| && !IsDigit(s[i])
    ensures AllDigits(s[..i])
  {
    if !IsDigit(s[0]) then 0
    else
      var i := 1 + FirstNonDigit(s[1..]);
      assert s[..i] == [s[0]] + s[1..][..i - 1];
      i
  }

  /** `sum(int(digit) for digit in s)`: the characters are converted left to
      right, and the first one that is not a digit raises. */
  function SumOfDigits(s: string): (r: Result<int, PyError>)
    ensures r.Success? <==> AllDigits(s)
    ensures r.Failure? ==> r.error == ValueError([s[FirstNonDigit(s)]])
  {
    if |s| == 0 then Success(0)
    else
      var head := ParseInt([s[0]]);
      ParseSingleChar(s[0]);
      if head.None? then Failure(ValueError([s[0]]))
      else
        var rest := SumOfDigits(s[1..]);
        if rest.Failure? then rest else Success(head.value + rest.value)
  }

  /** `is_lucky(ticket)` on the string form of the ticket. */
  function IsLucky(ticket: string): (r: Result<bool, PyError>)
    ensures |ticket| != 6 ==> r == Success(false)
  {
    if |ticket| == 6 then
      var first :- SumOfDigits(ticket[..3]);
      var second :- SumOfDigits(ticket[3..]);
      Success(first == second)
    else Success(false)
  }

  /** The sum of the digit values of an all-digit string. */
  function DigitSum(s: string): (sum: nat)
    requires AllDigits(s)
  {
    if |s| == 0 then 0 else DigitValue(s[0]) + DigitSum(s[1..])
  }

  /** On an all-digit string the summed `int(digit)` values are the digit sum. */
  lemma {:induction false} SumOfDigitsValue(s: string)
    requires AllDigits(s)
    ensures SumOfDigits(s) == Success(DigitSum(s) as int)
    decreases |s|
  {
    if |s| > 0 {
      SumOfDigitsStep(s);
      SumOfDigitsValue(s[1..]);
    }
  }

  lemma SumOfDigitsStep(s: string)
    requires |s| > 0 && AllDigits(s)
    ensures SumOfDigits(s).Success? && SumOfDigits(s[1..]).Success?
    ensures SumOfDigits(s).value == DigitValue(s[0]) + SumOfDigits(s[1..]).value
  {
    DigitCharParses(s);
  }

  lemma DigitCharParses(s: string)
    requires |s| > 0 && AllDigits(s)
    ensures ParseInt([s[0]]) == Some(DigitValue(s[0]) as int)
  {
    ParseSingleChar(s[0]);
  }

  lemma SumOfThreeDigits(s: string)
    requires |s| == 3 && AllDigits(s)
    ensures SumOfDigits(s) == Success(DigitValue(s[0]) + DigitValue(s[1]) + DigitValue(s[2]))
  {
    SumOfDigitsStep(s);
    assert s[1..][1..] == s[2..];
    SumOfDigitsStep(s[1..]);
    assert s[2..][1..] == [];
    SumOfDigitsStep(s[2..]);
  }

  lemma FirstNonDigitAfterDigits(a: string, b: string)
    requires AllDigits(a) && !AllDigits(b)
    ensures !AllDigits(a + b)
    ensures FirstNonDigit(a + b) == |a| + FirstNonDigit(b)
  {
    var i := FirstNonDigit(b);
    assert (a + b)[|a| + i] == b[i];
    assert (a + b)[..|a| + i] == a + b[..i];
  }

  lemma FirstNonDigitBefore(a: string, b: string)
    requires !AllDigits(a)
    ensures !AllDigits(a + b)
    ensures FirstNonDigit(a + b) == FirstNonDigit(a)
  {
    var i := FirstNonDigit(a);
    assert (a + b)[i] == a[i];
    assert (a + b)[..i] == a[..i];
  }

  /** `is_lucky` succeeds exactly on the inputs that are not malformed, it
      holds exactly of the lucky tickets, and on a malformed ticket it raises
      on the first non-digit character. */
  lemma IsLuckySpec(t: string)
    ensures IsLucky(t).Success? <==> !Malformed(t)
    ensures IsLucky(t) == Success(true) <==> LuckyTicket(t)
    ensures Malformed(t) ==> IsLucky(t) == Failure(ValueError([t[FirstNonDigit(t)]]))
  {
    if |t| == 6 {
      var a, b := t[..3], t[3..];
      assert t == a + b;
      if AllDigits(a) && AllDigits(b) {
        SumOfThreeDigits(a);
        SumOfThreeDigits(b);
      } else if AllDigits(a) {
        FirstNonDigitAfterDigits(a, b);
      } else {
        FirstNonDigitBefore(a, b);
      }
    }
  }

  /** The ticket with its two halves exchanged. */
  function SwapHalves(t: string): (s: string)
    requires |t| == 6
    ensures |s| == 6 && s[..3] == t[3..] && s[3..] == t[..3]
  {
    t[3..] + t[..3]
  }

  /** Luckiness does not depend on which half comes first. */
  lemma IsLuckySwapHalves(t: string)
    requires |t| == 6
    ensures IsLucky(SwapHalves(t)).Success? <==> IsLucky(t).Success?
    ensures IsLucky(t).Success? ==> IsLucky(SwapHalves(t)) == IsLucky(t)
  {
    var s := SwapHalves(t);
    assert AllDigits(s) <==> AllDigits(t) by {
      assert t == s[3..] + s[..3];
    }
    IsLuckySpec(s);
    IsLuckySpec(t);
  }

  lemma IsLuckyExampleLucky()
    ensures IsLucky("123132") == Success(true)
  {
    var t := "123132";
    assert AllDigits(t);
    assert DigitValue(t[0]) + DigitValue(t[1]) + DigitValue(t[2]) == 6;
    assert DigitValue(t[3]) + DigitValue(t[4]) + DigitValue(t[5]) == 6;
    IsLuckySpec(t);
  }

  lemma IsLuckyExampleNotLucky()
    ensures IsLucky("123456") == Success(false)
  {
    var t := "123456";
    assert AllDigits(t);
    assert DigitValue(t[0]) + DigitValue(t[1]) + DigitValue(t[2]) == 6;
    assert DigitValue(t[3]) + DigitValue(t[4]) + DigitValue(t[5]) == 15;
    IsLuckySpec(t);
  }

  lemma IsLuckyExampleRaises()
    ensures IsLucky("12a456") == Failure(ValueError("a"))
  {
    var t := "12a456";
    assert !IsDigit(t[2]);
    assert FirstNonDigit(t) == 2 by {
      assert IsDigit(t[0]) && t[1..][0] == t[1] && IsDigit(t[1]);
      assert t[1..][1..][0] == t[2];
    }
    IsLuckySpec(t);
  }
}

=== FILE: text.dfy ===
/** Python's `str.strip()` with no argument, over a fixed ASCII whitespace set.

    Like CPython, `Strip` scans forward from the start past whitespace, then
    backward from the end past whitespace (never crossing the first scan),
    and returns what lies between. Its partner is `StripUnique`: whenever a
    string splits as whitespace + core + whitespace with a core that neither
    starts nor ends with whitespace, `Strip` returns that core.
 */
module Text {

  /** The whitespace characters `str.strip()` removes in this model:
      space, tab, line feed, carriage return, vertical tab, form feed. */
  predicate IsWhitespace(c: char) {
    c == ' ' || c == '\t' || c == '\n' || c == '\r' || c == '\U{0B}' || c == '\U{0C}'
  }

  predicate AllWhitespace(s: string) {
    forall i :: 0 <= i < |s| ==> IsWhitespace(s[i])
  }

  /** A string that `str.strip()` leaves unchanged: no whitespace at either end. */
  predicate IsStripped(s: string) {
    |s| == 0 || (!IsWhitespace(s[0]) && !IsWhitespace(s[|s| - 1]))
  }

  /** The forward scan: the first index at or after `k` that does not hold
      whitespace, or `|s|`. */
  function SkipForward(s: string, k: nat): (i: nat)
    requires k <= |s|
    ensures k <= i <= |s|
    ensures forall j :: k <= j < i ==> IsWhitespace(s[j])
    ensures i == |s| || !IsWhitespace(s[i])
    decreases |s| - k
  {
    if k < |s| && IsWhitespace(s[k]) then SkipForward(s, k + 1) else k
  }

  /** The backward scan: the smallest index `j` with `lo <= j <= k` such
      that `s[j..k]` is all whitespace. */
  function SkipBackward(s: string, lo: nat, k: nat): (j: nat)
    requires lo <= k <= |s|
    ensures lo <= j <= k
    ensures forall m :: j <= m < k ==> IsWhitespace(s[m])
    ensures j == lo || !IsWhitespace(s[j - 1])
    decreases k
  {
    if k > lo && IsWhitespace(s[k - 1]) then SkipBackward(s, lo, k - 1) else k
  }

  /** Where the stripped part of `s` begins. */
  function StripStart(s: string): nat {
    SkipForward(s, 0)
  }

  /** Where the stripped part of `s` ends. */
  function StripEnd(s: string): nat {
    SkipBackward(s, StripStart(s), |s|)
  }

  /** `s.strip()`: the string without its leading and trailing whitespace. */
  function Strip(s: string): (r: string)
    ensures IsStripped(r)
    ensures |r| <= |s|
  {
    s[StripStart(s)..StripEnd(s)]
  }

  /** The stripped string is a contiguous piece of the input and only
      whitespace was removed on either side of it. */
  lemma StripIsInfix(s: string)
    ensures StripStart(s) <= StripEnd(s) <= |s|
    ensures Strip(s) == s[StripStart(s)..StripEnd(s)]
    ensures AllWhitespace(s[..StripStart(s)])
    ensures AllWhitespace(s[StripEnd(s)..])
  {
  }

  lemma {:induction false} SkipForwardReaches(s: string, k: nat, m: nat)
    requires k <= m <= |s|
    requires forall j :: k <= j < m ==> IsWhitespace(s[j])
    requires m == |s| || !IsWhitespace(s[m])
    ensures SkipForward(s, k) == m
    decreases m - k
  {
    if k < m {
      SkipForwardReaches(s, k + 1, m);
    }
  }

  lemma {:induction false} SkipBackwardReaches(s: string, lo: nat, m: nat, k: nat)
    requires lo <= m <= k <= |s|
    requires forall j :: m <= j < k ==> IsWhitespace(s[j])
    requires m == lo || !IsWhitespace(s[m - 1])
    ensures SkipBackward(s, lo, k) == m
    decreases k - m
  {
    if m < k {
      SkipBackwardReaches(s, lo, m, k - 1);
    }
  }

  /** Whitespace around a stripped core is exactly what `Strip` removes. */
  lemma StripUnique(a: string, core: string, b: string)
    requires AllWhitespace(a) && AllWhitespace(b) && IsStripped(core)
    ensures Strip(a + core + b) == core
  {
    var s := a + core + b;
    if |core| == 0 {
      assert forall j :: 0 <= j < |s| ==> IsWhitespace(s[j]);
      SkipForwardReaches(s, 0, |s|);
      assert s[|s|..|s|] == core;
    } else {
      var lo, hi := |a|, |a| + |core|;
      assert s[lo] == core[0];
      assert forall j :: 0 <= j < lo ==> s[j] == a[j];
      SkipForwardReaches(s, 0, lo);
      assert s[hi - 1] == core[|core| - 1];
      assert forall j :: hi <= j < |s| ==> s[j] == b[j - hi];
      SkipBackwardReaches(s, lo, hi, |s|);
      assert s[lo..hi] == core;
    }
  }

  /** `Strip` leaves a stripped string unchanged; in particular it is idempotent. */
  lemma StripFixpoint(s: string)
    ensures Strip(s) == s <==> IsStripped(s)
    ensures Strip(Strip(s)) == Strip(s)
  {
    if IsStripped(s) {
      assert [] + s + [] == s;
      StripUnique([], s, []);
    }
    var r := Strip(s);
    assert [] + r + [] == r;
    StripUnique([], r, []);
  }

  lemma AllWhitespaceConcat(x: string, y: string)
    requires AllWhitespace(x) && AllWhitespace(y)
    ensures AllWhitespace(x + y)
  {
  }

  lemma Regroup(a: string, lead: string, r: string, trail: string, b: string)
    ensures a + (lead + r + trail) + b == (a + lead) + r + (trail + b)
  {
  }

  /** Adding whitespace around a string does not change what it strips to. */
  lemma StripIgnoresPadding(a: string, s: string, b: string)
    requires AllWhitespace(a) && AllWhitespace(b)
    ensures Strip(a + s + b) == Strip(s)
  {
    StripIsInfix(s);
    var r := Strip(s);
    var lead, trail := s[..StripStart(s)], s[StripEnd(s)..];
    assert s == lead + r + trail;
    AllWhitespaceConcat(a, lead);
    AllWhitespaceConcat(trail, b);
    Regroup(a, lead, r, trail, b);
    StripUnique(a + lead, r, trail + b);
  }
}

=== FILE: tickets.dfy ===
/** The ticket-analysis functions of app/ticket_logic.py.

    - `CleanLines` is the strip-and-drop-blank step of
      `read_and_analyze_tickets`; `LuckyFilter` is its lucky sublist;
      `ReadAndAnalyze` puts the two together, with the file contents as an
      input (`None` when opening or reading the file failed).
    - `CountEvenOdd` is `count_even_odd_tickets`; `ParsedNumbers` is its
      `valid_numbers` list.
    - `CountLucky` is `count_lucky_tickets`.

    `is_lucky` raises on a malformed six-character ticket and none of these
    functions catches it, so the lucky filter, the lucky count and the load
    all return a `Result`.
 */
module Tickets {
  import opened Wrappers
  import opened Text
  import opened Digits
  import opened Lucky

  /** `a` is `b` with some elements left out, the rest in their order. */
  ghost predicate IsSubsequence<T>(a: seq<T>, b: seq<T>)
    decreases |b|
  {
    if |a| == 0 then true
    else if |b| == 0 then false
    else (a[0] == b[0] && IsSubsequence(a[1..], b[1..])) || IsSubsequence(a, b[1..])
  }

  /** What `read_and_analyze_tickets` keeps of each line: non-empty and
      already stripped. */
  predicate IsCleanTicket(t: string) {
    |t| > 0 && IsStripped(t)
  }

  /** The stripped form of every line, blank ones included. */
  function StripAll(lines: seq<string>): (r: seq<string>)
    ensures |r| == |lines|
    ensures forall i :: 0 <= i < |lines| ==> r[i] == Strip(lines[i])
  {
    if |lines| == 0 then [] else [Strip(lines[0])] + StripAll(lines[1..])
  }

  /** `[ticket.strip() for ticket in tickets if ticket.strip()]`. */
  function CleanLines(lines: seq<string>): (tickets: seq<string>)
    ensures |tickets| <= |lines|
    ensures forall k :: 0 <= k < |tickets| ==> IsCleanTicket(tickets[k])
  {
    if |lines| == 0 then []
    else
      var t := Strip(lines[0]);
      var rest := CleanLines(lines[1..]);
      if |t| > 0 then [t] + rest else rest
  }

  /** Every returned ticket is non-empty and equal to its own strip. */
  lemma CleanTicketsAreStripped(lines: seq<string>)
    ensures forall k :: 0 <= k < |CleanLines(lines)| ==>
              |CleanLines(lines)[k]| > 0 && Strip(CleanLines(lines)[k]) == CleanLines(lines)[k]
  {
    var tickets := CleanLines(lines);
    forall k | 0 <= k < |tickets|
      ensures Strip(tickets[k]) == tickets[k]
    {
      StripFixpoint(tickets[k]);
    }
  }

  /** Cleaning distributes over concatenation of the input lines. */
  lemma {:induction false} CleanLinesAppend(a: seq<string>, b: seq<string>)
    ensures CleanLines(a + b) == CleanLines(a) + CleanLines(b)
    decreases |a|
  {
    if |a| == 0 {
      assert a + b == b;
    } else {
      assert (a + b)[0] == a[0];
      assert (a + b)[1..] == a[1..] + b;
      CleanLinesAppend(a[1..], b);
    }
  }

  /** The entries that are not empty, in their order. */
  function NonBlank(ss: seq<string>): (kept: seq<string>)
    ensures |kept| <= |ss|
  {
    if |ss| == 0 then []
    else if |ss[0]| > 0 then [ss[0]] + NonBlank(ss[1..])
    else NonBlank(ss[1..])
  }

  /** The tickets are exactly the stripped lines with the empty ones left
      out: every line whose strip is non-empty contributes that strip, in
      file order. */
  lemma {:induction false} CleanLinesIsNonBlankStrips(lines: seq<string>)
    ensures CleanLines(lines) == NonBlank(StripAll(lines))
    decreases |lines|
  {
    if |lines| > 0 {
      assert StripAll(lines)[1..] == StripAll(lines[1..]);
      CleanLinesIsNonBlankStrips(lines[1..]);
    }
  }

  /** The tickets are a subsequence of the stripped lines. */
  lemma {:induction false} CleanLinesKeepsOrder(lines: seq<string>)
    ensures IsSubsequence(CleanLines(lines), StripAll(lines))
    decreases |lines|
  {
    if |lines| > 0 {
      CleanLinesKeepsOrder(lines[1..]);
      var rest := CleanLines(lines[1..]);
      var all := StripAll(lines);
      assert all[1..] == StripAll(lines[1..]);
      if |Strip(lines[0])| > 0 {
        assert CleanLines(lines)[1..] == rest;
      } else {
        SubsequenceDropHead(rest, all);
      }
    }
  }

  lemma SubsequenceDropHead<T>(a: seq<T>, b: seq<T>)
    requires |b| > 0 && IsSubsequence(a, b[1..])
    ensures IsSubsequence(a, b)
  {
  }

  /** A list that is already clean is left unchanged. */
  lemma {:induction false} CleanLinesOfClean(tickets: seq<string>)
    requires forall k :: 0 <= k < |tickets| ==> IsCleanTicket(tickets[k])
    ensures CleanLines(tickets) == tickets
    decreases |tickets|
  {
    if |tickets| > 0 {
      var t := tickets[0];
      assert IsCleanTicket(t);
      StripFixpoint(t);
      CleanLinesOfClean(tickets[1..]);
      assert CleanLines(tickets) == [t] + tickets[1..];
      assert [t] + tickets[1..] == tickets;
    }
  }

  /** Cleaning is idempotent: re-reading the tickets returns them unchanged. */
  lemma CleanLinesIdempotent(lines: seq<string>)
    ensures CleanLines(CleanLines(lines)) == CleanLines(lines)
  {
    CleanLinesOfClean(CleanLines(lines));
  }

  /** A ticket that fits on one line of a text file: text-mode
      `readlines()` splits at `\n` and turns `\r` into a line break, so a
      ticket holding either would come back as several lines. */
  predicate OnOneLine(t: string) {
    '\n' !in t && '\r' !in t
  }

  /** The tickets written one per line, each followed by a line feed; for
      tickets that are `OnOneLine`, this is what `readlines()` returns for
      the written file. */
  function Terminated(tickets: seq<string>): (lines: seq<string>)
    ensures |lines| == |tickets|
    ensures forall k :: 0 <= k < |tickets| ==> lines[k] == tickets[k] + "\n"
  {
    if |tickets| == 0 then [] else [tickets[0] + "\n"] + Terminated(tickets[1..])
  }

  /** Writing clean one-line tickets one per line and loading them gives
      them back. */
  lemma {:induction false} CleanLinesReadBack(tickets: seq<string>)
    requires forall k :: 0 <= k < |tickets| ==> IsCleanTicket(tickets[k]) && OnOneLine(tickets[k])
    ensures CleanLines(Terminated(tickets)) == tickets
    decreases |tickets|
  {
    if |tickets| > 0 {
      var t := tickets[0];
      var lines := Terminated(tickets);
      assert lines == [t + "\n"] + Terminated(tickets[1..]);
      assert lines[1..] == Terminated(tickets[1..]);
      TerminatedLineStrips(t);
      CleanLinesReadBack(tickets[1..]);
      assert CleanLines(lines) == [t] + CleanLines(lines[1..]);
      assert [t] + tickets[1..] == tickets;
    }
  }

  lemma TerminatedLineStrips(t: string)
    requires IsCleanTicket(t)
    ensures Strip(t + "\n") == t
  {
    assert AllWhitespace("\n");
    assert [] + t + "\n" == t + "\n";
    StripUnique([], t, "\n");
  }

  /** No ticket makes `is_lucky` raise (see `NoMalformedEverywhere`). */
  predicate NoMalformed(tickets: seq<string>) {
    |tickets| == 0 || (!Malformed(tickets[0]) && NoMalformed(tickets[1..]))
  }

  lemma {:induction false} NoMalformedEverywhere(tickets: seq<string>)
    ensures NoMalformed(tickets) <==> forall i :: 0 <= i < |tickets| ==> !Malformed(tickets[i])
    decreases |tickets|
  {
    if |tickets| > 0 {
      NoMalformedEverywhere(tickets[1..]);
      assert forall i :: 1 <= i < |tickets| ==> tickets[i] == tickets[1..][i - 1];
    }
  }

  /** Index of the first ticket on which `is_lucky` raises. */
  function FirstMalformed(tickets: seq<string>): (i: nat)
    requires !NoMalformed(tickets)
    ensures i < |tickets| && Malformed(tickets[i])
    ensures NoMalformed(tickets[..i])
  {
    if Malformed(tickets[0]) then 0
    else
      var i := 1 + FirstMalformed(tickets[1..]);
      assert tickets[..i][1..] == tickets[1..][..i - 1];
      i
  }

  /** `[ticket for ticket in tickets if is_lucky(ticket)]`; the first
      malformed ticket raises out of the comprehension. */
  function LuckyFilter(tickets: seq<string>): (r: Result<seq<string>, PyError>)
    ensures r.Success? <==> NoMalformed(tickets)
    ensures r.Failure? ==> r == Failure(IsLucky(tickets[FirstMalformed(tickets)]).error)
    ensures r.Success? ==> |r.value| <= |tickets|
    ensures r.Success? ==> forall k :: 0 <= k < |r.value| ==> LuckyTicket(r.value[k])
    ensures r.Success? ==> forall i :: 0 <= i < |tickets| && LuckyTicket(tickets[i]) ==> tickets[i] in r.value
  {
    if |tickets| == 0 then Success([])
    else
      var t := tickets[0];
      IsLuckySpec(t);
      var here := IsLucky(t);
      if here.Failure? then Failure(here.error)
      else
        var rest := LuckyFilter(tickets[1..]);
        assert forall i :: 1 <= i < |tickets| ==> tickets[i] == tickets[1..][i - 1];
        if rest.Failure? then Failure(rest.error)
        else Success(if here.value then [t] + rest.value else rest.value)
  }

  /** The lucky tickets of a list, in order: the reference filter. */
  function KeepLucky(tickets: seq<string>): (kept: seq<string>)
    ensures |kept| <= |tickets|
  {
    if |tickets| == 0 then []
    else if LuckyTicket(tickets[0]) then [tickets[0]] + KeepLucky(tickets[1..])
    else KeepLucky(tickets[1..])
  }

  /** When no ticket raises, the lucky list is exactly the reference filter:
      the lucky tickets, in order, each as often as it occurs. */
  lemma {:induction false} LuckyFilterIsKeepLucky(tickets: seq<string>)
    requires NoMalformed(tickets)
    ensures LuckyFilter(tickets) == Success(KeepLucky(tickets))
    decreases |tickets|
  {
    if |tickets| > 0 {
      IsLuckySpec(tickets[0]);
      LuckyFilterIsKeepLucky(tickets[1..]);
    }
  }

  /** The lucky list keeps the order of the ticket list. */
  lemma {:induction false} LuckyFilterKeepsOrder(tickets: seq<string>)
    requires LuckyFilter(tickets).Success?
    ensures IsSubsequence(LuckyFilter(tickets).value, tickets)
    decreases |tickets|
  {
    if |tickets| > 0 {
      LuckyFilterKeepsOrder(tickets[1..]);
      var rest := LuckyFilter(tickets[1..]).value;
      var lucky := LuckyFilter(tickets).value;
      if lucky == rest {
        SubsequenceDropHead(rest, tickets);
      } else {
        assert lucky[1..] == rest;
      }
    }
  }

  /** `read_and_analyze_tickets(file_path)`: `contents` is what `readlines()`
      returned, or `None` when opening or reading the file raised. */
  function ReadAndAnalyze(contents: Option<seq<string>>): (r: Result<(seq<string>, seq<string>), PyError>)
    ensures contents.None? ==> r == Success(([], []))
    ensures contents.Some? ==> (r.Success? <==> NoMalformed(CleanLines(contents.value)))
    ensures contents.Some? && r.Success? ==> r.value.0 == CleanLines(contents.value)
    ensures r.Success? ==> |r.value.1| <= |r.value.0|
    ensures r.Success? ==> forall k :: 0 <= k < |r.value.1| ==> LuckyTicket(r.value.1[k])
    ensures r.Success? ==> forall k :: 0 <= k < |r.value.0| && LuckyTicket(r.value.0[k]) ==> r.value.0[k] in r.value.1
    ensures r.Success? ==> r.value.1 == KeepLucky(r.value.0)
  {
    match contents
    case None => Success(([], []))
    case Some(lines) =>
      var tickets := CleanLines(lines);
      var lucky :- LuckyFilter(tickets);
      LuckyFilterIsKeepLucky(tickets);
      Success((tickets, lucky))
  }

  /** The lucky list of a successful load keeps the order of the ticket list
      and has as many entries as `count_lucky_tickets` counts. */
  lemma ReadAndAnalyzeLucky(contents: Option<seq<string>>)
    requires ReadAndAnalyze(contents).Success?
    ensures IsSubsequence(ReadAndAnalyze(contents).value.1, ReadAndAnalyze(contents).value.0)
    ensures CountLucky(ReadAndAnalyze(contents).value.0) == Success(|ReadAndAnalyze(contents).value.1|)
  {
    if contents.Some? {
      var tickets := CleanLines(contents.value);
      LuckyFilterKeepsOrder(tickets);
      CountLuckyIsFilterLength(tickets);
    }
  }

  /** An unreadable file and a file with no tickets give the same result. */
  lemma ReadFailureLooksEmpty(blank: seq<string>)
    requires forall i :: 0 <= i < |blank| ==> AllWhitespace(blank[i])
    ensures ReadAndAnalyze(None) == ReadAndAnalyze(Some(blank)) == Success(([], []))
  {
    CleanLinesOnlyBlank(blank);
    assert LuckyFilter([]) == Success([]);
  }

  lemma {:induction false} CleanLinesOnlyBlank(blank: seq<string>)
    requires forall i :: 0 <= i < |blank| ==> AllWhitespace(blank[i])
    ensures CleanLines(blank) == []
    decreases |blank|
  {
    if |blank| > 0 {
      assert blank[0] == blank[0] + [] + [];
      StripUnique(blank[0], [], []);
      CleanLinesOnlyBlank(blank[1..]);
    }
  }

  /** One step of the generator sum: the verdict on the current ticket
      followed by the count of the rest. */
  function Tally(here: Result<bool, PyError>, rest: Result<nat, PyError>): (r: Result<nat, PyError>) {
    if here.Failure? then Failure(here.error)
    else if rest.Failure? then Failure(rest.error)
    else Success((if here.value then 1 else 0) + rest.value)
  }

  /** `count_lucky_tickets(tickets)`: the number of lucky tickets; the first
      malformed ticket raises out of the generator. */
  function CountLucky(tickets: seq<string>): (r: Result<nat, PyError>)
    ensures r.Success? <==> NoMalformed(tickets)
    ensures r.Success? ==> r.value <= |tickets|
  {
    if |tickets| == 0 then Success(0)
    else
      IsLuckySpec(tickets[0]);
      Tally(IsLucky(tickets[0]), CountLucky(tickets[1..]))
  }

  /** The lucky count is the length of the lucky list, and both raise the same error. */
  lemma {:induction false} CountLuckyIsFilterLength(tickets: seq<string>)
    ensures LuckyFilter(tickets).Success? ==> CountLucky(tickets) == Success(|LuckyFilter(tickets).value|)
    ensures LuckyFilter(tickets).Failure? ==> CountLucky(tickets) == Failure(LuckyFilter(tickets).error)
    decreases |tickets|
  {
    if |tickets| > 0 {
      CountLuckyIsFilterLength(tickets[1..]);
    }
  }

  /** Positions of the tickets that satisfy `p`. */
  ghost function Positions(tickets: seq<string>, p: string -> bool): set<nat> {
    set i: nat | i < |tickets| && p(tickets[i])
  }

  /** Positions of the lucky tickets. */
  ghost function LuckyPositions(tickets: seq<string>): set<nat> {
    Positions(tickets, LuckyTicket)
  }

  lemma NoMalformedAppend(a: seq<string>, b: seq<string>)
    ensures NoMalformed(a + b) <==> NoMalformed(a) && NoMalformed(b)
  {
    NoMalformedEverywhere(a + b);
    NoMalformedEverywhere(a);
    NoMalformedEverywhere(b);
    assert forall i :: 0 <= i < |a| ==> (a + b)[i] == a[i];
    assert forall i :: 0 <= i < |b| ==> (a + b)[|a| + i] == b[i];
  }

  lemma CountLuckySingle(t: string)
    requires !Malformed(t)
    ensures CountLucky([t]) == Success(if LuckyTicket(t) then 1 else 0)
  {
    IsLuckySpec(t);
    assert [t][1..] == [];
  }

  /** Appending one ticket adds its position exactly when it satisfies `p`. */
  lemma PositionsSnoc(init: seq<string>, last: string, p: string -> bool)
    ensures |Positions(init + [last], p)| == |Positions(init, p)| + (if p(last) then 1 else 0)
  {
    var ts, n := init + [last], |init|;
    var before := Positions(init, p);
    assert forall i :: 0 <= i < n ==> ts[i] == init[i];
    assert n !in before;
    if p(last) {
      assert Positions(ts, p) == before + {n};
    } else {
      assert Positions(ts, p) == before;
    }
  }

  /** When nothing raises, the lucky count is the number of positions that
      hold a lucky ticket. */
  lemma {:induction false} CountLuckyCountsPositions(tickets: seq<string>)
    requires NoMalformed(tickets)
    ensures CountLucky(tickets) == Success(|LuckyPositions(tickets)|)
    decreases |tickets|
  {
    if |tickets| > 0 {
      var n := |tickets| - 1;
      var init, last := tickets[..n], tickets[n];
      assert tickets == init + [last];
      NoMalformedAppend(init, [last]);
      CountLuckyAppend(init, [last]);
      CountLuckyCountsPositions(init);
      CountLuckySingle(last);
      PositionsSnoc(init, last, LuckyTicket);
    }
  }

  /** Sums two counts, passing on the first error. */
  function Combine(x: Result<nat, PyError>, y: Result<nat, PyError>): (r: Result<nat, PyError>) {
    if x.Failure? then x
    else if y.Failure? then y
    else Success(x.value + y.value)
  }

  lemma TallyCombine(here: Result<bool, PyError>, x: Result<nat, PyError>, y: Result<nat, PyError>)
    ensures Tally(here, Combine(x, y)) == Combine(Tally(here, x), y)
  {
  }

  /** Counting two lists one after the other adds their counts; an error in
      the first list wins over one in the second. */
  lemma {:induction false} CountLuckyAppend(a: seq<string>, b: seq<string>)
    ensures CountLucky(a + b) == Combine(CountLucky(a), CountLucky(b))
    decreases |a|
  {
    if |a| == 0 {
      assert a + b == b;
    } else {
      assert (a + b)[0] == a[0];
      assert (a + b)[1..] == a[1..] + b;
      CountLuckyAppend(a[1..], b);
      TallyCombine(IsLucky(a[0]), CountLucky(a[1..]), CountLucky(b));
    }
  }

  /** What one entry adds to `valid_numbers`: its value, or nothing when
      `int()` raises ValueError. */
  function ParsedEntry(ticket: string): (numbers: seq<int>)
    ensures |numbers| <= 1
  {
    match ParseInt(ticket)
    case Some(v) => [v]
    case None => []
  }

  /** `valid_numbers`: the value of every ticket that `int()` accepts, in order. */
  function ParsedNumbers(tickets: seq<string>): (numbers: seq<int>)
    ensures |numbers| <= |tickets|
  {
    if |tickets| == 0 then []
    else ParsedNumbers(tickets[..|tickets| - 1]) + ParsedEntry(tickets[|tickets| - 1])
  }

  lemma {:induction false} ParsedNumbersAppend(a: seq<string>, b: seq<string>)
    ensures ParsedNumbers(a + b) == ParsedNumbers(a) + ParsedNumbers(b)
    decreases |b|
  {
    if |b| == 0 {
      assert a + b == a;
    } else {
      var last := |b| - 1;
      assert (a + b)[..|a + b| - 1] == a + b[..last];
      assert (a + b)[|a + b| - 1] == b[last];
      ParsedNumbersAppend(a, b[..last]);
      assert ParsedNumbers(a + b) == ParsedNumbers(a + b[..last]) + ParsedEntry(b[last]);
    }
  }

  /** A single entry contributes its value, or nothing when `int()` rejects it. */
  lemma ParsedNumbersSingle(x: string)
    ensures ParsedNumbers([x]) == (if ParseInt(x).Some? then [ParseInt(x).value] else [])
  {
    assert [x][..0] == [];
  }

  /** An entry that `int()` rejects contributes to neither count. */
  lemma UnparseableIgnored(a: seq<string>, x: string, b: seq<string>)
    requires ParseInt(x) == None
    ensures ParsedNumbers(a + [x] + b) == ParsedNumbers(a + b)
  {
    ParsedNumbersAppend(a + [x], b);
    ParsedNumbersAppend(a, [x]);
    ParsedNumbersAppend(a, b);
    ParsedNumbersSingle(x);
    assert ParsedNumbers(a) + [] == ParsedNumbers(a);
  }

  /** Number of values `v` with `v % 2 == 0` (Python's `%` and Dafny's agree for divisor 2). */
  function CountEven(numbers: seq<int>): (n: nat)
    ensures n <= |numbers|
  {
    if |numbers| == 0 then 0
    else CountEven(numbers[..|numbers| - 1]) + (if numbers[|numbers| - 1] % 2 == 0 then 1 else 0)
  }

  /** Number of values `v` with `v % 2 == 1`, negative values included. */
  function CountOdd(numbers: seq<int>): (n: nat)
    ensures n <= |numbers|
  {
    if |numbers| == 0 then 0
    else CountOdd(numbers[..|numbers| - 1]) + (if numbers[|numbers| - 1] % 2 == 1 then 1 else 0)
  }

  /** Every value is even or odd and not both, so the two counts split the list. */
  lemma {:induction false} EvenOddPartition(numbers: seq<int>)
    ensures CountEven(numbers) + CountOdd(numbers) == |numbers|
    decreases |numbers|
  {
    if |numbers| > 0 {
      EvenOddPartition(numbers[..|numbers| - 1]);
    }
  }

  /** The loop that fills `valid_numbers`: each entry is passed to `int()`
      and kept when it parses; a ValueError skips it. */
  method CollectValidNumbers(tickets: seq<string>) returns (valid: seq<int>)
    ensures valid == ParsedNumbers(tickets)
  {
    valid := [];
    var i := 0;
    while i < |tickets|
      invariant 0 <= i <= |tickets|
      invariant valid == ParsedNumbers(tickets[..i])
    {
      assert tickets[..i + 1][..i] == tickets[..i];
      var parsed := ParseInt(tickets[i]);
      if parsed.Some? {
        valid := valid + [parsed.value];
      }
      i := i + 1;
    }
    assert tickets[..i] == tickets;
  }

  /** `sum(1 for num in valid_numbers if num % 2 == 0)`. */
  method CountEvenNumbers(numbers: seq<int>) returns (even: nat)
    ensures even == CountEven(numbers)
  {
    even := 0;
    var j := 0;
    while j < |numbers|
      invariant 0 <= j <= |numbers|
      invariant even == CountEven(numbers[..j])
    {
      assert numbers[..j + 1][..j] == numbers[..j];
      if numbers[j] % 2 == 0 {
        even := even + 1;
      }
      j := j + 1;
    }
    assert numbers[..j] == numbers;
  }

  /** `count_even_odd_tickets(tickets)`: collect the values `int()` accepts,
      count the even ones, and take the rest as odd. */
  method CountEvenOdd(tickets: seq<string>) returns (even: nat, odd: nat)
    ensures even == CountEven(ParsedNumbers(tickets))
    ensures odd == CountOdd(ParsedNumbers(tickets))
    ensures even + odd == |ParsedNumbers(tickets)| <= |tickets|
  {
    var valid := CollectValidNumbers(tickets);
    even := CountEvenNumbers(valid);
    EvenOddPartition(valid);
    odd := |valid| - even;
  }
}

=== FILE: wrappers.dfy ===
/** Failure-compatible wrappers used throughout the model.

    - Option<T> models a value that may be missing: a parse that may not
      succeed (Python's `int()` raising a ValueError that the caller
      catches), and file contents that could not be read.
    - Result<T, E> models a computation whose exception escapes to the caller.
 */
module Wrappers {

  datatype Option<+T> = None | Some(value: T)

  datatype Result<+T, +E> = Success(value: T) | Failure(error: E) {

    predicate IsFailure() {
      Failure?
    }

    function PropagateFailure<U>(): Result<U, E>
      requires Failure?
    {
      Failure(error)
    }

    function Extract(): T
      requires Success?
    {
      value
    }
  }
}
